=== FILE: README.md ===
# Hash-linked block chain with proof-of-work admission

A Dafny model of the two teaching block chains in `lesson-one/src/main.rs` and
`lesson-two/src/main.rs`. Both programs keep a vector of blocks. Each block
stores an index, a clock timestamp, a text payload, the hash of its
predecessor, its own hash and a nonce. `calculate_hash` is SHA-256 over the
index, timestamp, data, previous hash and nonce joined with no separators;
the three numbers are written out in decimal and the two strings are
inserted as they are.
`mine_block` keeps incrementing the nonce until the hash starts with
`difficulty` zero digits. `add_block` mines a block that links to the
current last block and pushes it. `is_valid` rehashes every block after the
genesis block and checks each link to the block before it.

In the modelled behaviour, the second program differs in three ways:

- the index is a `u32` rather than a `u64`;
- the difficulty is 4 rather than 3;
- each block has an `effort_used` counter, which mining increments in step
  with the nonce.

Its `latest_block` also differs: it returns `()` rather than the last block,
and no other code calls it.

Files and modules:

- `options.dfy` (`Options`): the `Option` type.
- `text.dfy` (`Text`): Rust's `str::repeat`, `str::starts_with` and the `{}`
  rendering of integers. It also holds a parser that inverts that rendering,
  used to show the rendering is injective.
- `hashing.dfy` (`Hashing`): the digest parameter, the preimage string and its
  single-field-edit lemmas, and the proof-of-work target.
- `lesson_one.dfy` (`LessonOne`) and `lesson_two.dfy` (`LessonTwo`): blocks,
  mining and chain operations, one module per program.

Modelling choices:

- **Immutable blocks.** A block is an immutable datatype, and a chain is a
  `seq` of blocks plus its difficulty. Where the source mutates a block in
  place, the model returns the updated block.
- **The digest is a parameter.** SHA-256 followed by lowercase hex rendering
  is the parameter `h: Hasher` (`string -> string`). What a lemma needs of it
  is stated in that lemma's `requires`:
  - `WellFormed(h)`: every output is 64 lowercase hex digits;
  - `Injective(h)`: no collisions, an idealisation used only by the tamper
    lemmas.
- **The clock is a parameter.** `Utc::now().timestamp()` becomes the
  parameter `now`.
- **Mining has a fuel bound.** Termination of the mining loop depends on the
  digest's values. So `Mine`/`MineBlock` take a bound `fuel` on the number of
  loop passes, and return `None` when the source would still be looping.
- **Index casts.** The second program's `chain.len() as u32` wraps above
  2^32 - 1; `ToU32` writes this out as a reduction modulo 2^32. The first
  program's `as u64` never loses anything, because a `usize` holds less than
  2^64 on every Rust target; `ToU64` is the identity on every such length.
- **Both forms of `mine_block`.** `MineBlock` is the source's `while` loop.
  `Mine` is a recursive reference definition, and `MineBlock` is proved equal
  to it.
- **Both forms of `is_valid`.** `IsValid` is the source's early-return loop.
  `ChainValid` is the all-links predicate, and `IsValid` is proved to return
  exactly that predicate.

Behaviour of the source that the model makes explicit:

- A fresh block's hash is `""`, and `"".starts_with("")` holds. So at
  difficulty 0 the mining loop never runs, and the appended block keeps the
  empty hash. `is_valid` then rejects the chain for any well-formed digest
  (`ZeroDifficultyBreaksValidity`).
- `is_valid` starts at block 1. An edit of any one of the genesis block's
  hashed fields goes unnoticed (`GenesisEditUndetected`). An edit of its
  stored hash is still caught by block 1's link check
  (`GenesisHashEditDetected`).
- The genesis block is hashed but never mined, so it need not meet the
  difficulty.
- The preimage has no separators. Changing one hashed field always changes
  it (`SingleFieldEditChangesPreimage`). Changing two fields can leave it
  unchanged (`TwoFieldEditCanCollide`): index 1 with timestamp 23 and index
  12 with timestamp 3 give the same preimage.
- In the second program `effort_used` is not hashed, so rewriting it is never
  detected (`EffortEditUndetected`).

## Model

| member | source | states |
|---|---|---|
| Text.Repeat | lesson-one/src/main.rs:50 | `"0".repeat(d)` is exactly `d` characters, every one of them `'0'` |
| Text.StartsWith | lesson-one/src/main.rs:53 | `str::starts_with`; a definition with no contract, given meaning by `Hashing.MeetsTargetMeaning` (the prefix is at most as long as the string and agrees with it character by character) |
| Text.IntToDecimal | lesson-one/src/main.rs:31-38 | the `{}` rendering of `i64`/`u64` values; a definition with no contract, given meaning by `Text.NatToDecimalShape`, `Text.DecimalRoundTrip` and `Text.ParseRenders` |
| Text.NatToDecimalShape | lesson-one/src/main.rs:31-38 | the `{}` rendering of a natural number is a non-empty digit string whose first digit is `0` only for the number 0 |
| Text.DecimalRoundTrip | lesson-one/src/main.rs:31-38 | parsing the `{}` rendering of any integer (negative ones with a `-` sign) gives the integer back |
| Text.ParseRenders | lesson-one/src/main.rs:31-38 | every string the parser accepts is exactly the rendering of the number it reads, so the parser is the rendering's inverse in both directions |
| Text.DecimalInjective | lesson-one/src/main.rs:31-38 | distinct integers render to distinct decimal strings |
| Hashing.Preimage | lesson-one/src/main.rs:31-38 | the `format!("{}{}{}{}{}", ...)` string; a definition with no contract, given meaning by `Hashing.SingleFieldEditChangesPreimage` and `Hashing.TwoFieldEditCanCollide` |
| Hashing.MiddleChangesWhole | lesson-one/src/main.rs:31-38 | in a separator-free concatenation, replacing one part by a different one with the same surroundings changes the whole string |
| Hashing.NumberChangesWhole | lesson-one/src/main.rs:31-38 | the same, for a part that is the decimal rendering of a number |
| Hashing.IndexEditChangesPreimage | lesson-one/src/main.rs:31-38 | changing only the index changes the hashed string |
| Hashing.TimestampEditChangesPreimage | lesson-one/src/main.rs:31-38 | changing only the timestamp changes the hashed string |
| Hashing.DataEditChangesPreimage | lesson-one/src/main.rs:31-38 | changing only the data changes the hashed string |
| Hashing.PreviousHashEditChangesPreimage | lesson-one/src/main.rs:31-38 | changing only the previous hash changes the hashed string |
| Hashing.NonceEditChangesPreimage | lesson-one/src/main.rs:31-38 | changing only the nonce changes the hashed string |
| Hashing.SingleFieldEditChangesPreimage | lesson-one/src/main.rs:31-38 | any edit of exactly one of the five hashed fields changes the preimage string |
| Hashing.TwoFieldEditCanCollide | lesson-two/src/main.rs:37-44 | two blocks that differ in index and timestamp (1/23 and 12/3) have the same preimage, so tamper detection is guaranteed only for single-field edits |
| Hashing.Target | lesson-two/src/main.rs:57 | the target string has exactly `difficulty` characters |
| Hashing.MeetsTarget | lesson-one/src/main.rs:53 | the mining loop's exit test `self.hash.starts_with(&target)`; a definition with no contract, given meaning by `Hashing.MeetsTargetMeaning` and `Hashing.EmptyHashMeetsOnlyZero` |
| Hashing.MeetsTargetMeaning | lesson-one/src/main.rs:53 | the mining loop's exit test holds iff the hash is at least `difficulty` long and opens with `difficulty` zero digits |
| Hashing.EmptyHashMeetsOnlyZero | lesson-one/src/main.rs:24 | a fresh block's empty hash passes the exit test iff the difficulty is 0 |
| Hashing.WellFormedMissesLongTargets | lesson-one/src/main.rs:45 | a 64-digit hex digest never passes a target of more than 64 zeros |
| Hashing.WellFormedNeverEmpty | lesson-one/src/main.rs:45 | a hex-rendered SHA-256 digest is never the empty string |
| LessonOne.ToU64 | lesson-one/src/main.rs:95 | `len as u64` is the length itself for every length a `usize` can hold |
| LessonOne.NewBlock | lesson-one/src/main.rs:18-27 | `Block::new` stores index, data, previous hash and the clock reading as given, with an empty hash and nonce 0 |
| LessonOne.CalculateHash | lesson-one/src/main.rs:30-46 | `calculate_hash`; a definition with no contract, given meaning by `LessonOne.CalculateHashReadsFiveFields` and `LessonOne.EditChangesHash` |
| LessonOne.CalculateHashReadsFiveFields | lesson-one/src/main.rs:30-46 | two blocks that agree on index, timestamp, data, previous hash and nonce get the same recomputed hash, whatever their stored hashes |
| LessonOne.EditChangesHash | lesson-one/src/main.rs:30-46 | under a collision-free digest, an edit of one of the five hashed fields changes the block's recomputed hash (the stored hash is not read, see `LessonOne.CalculateHashReadsFiveFields`) |
| LessonOne.Attempt | lesson-one/src/main.rs:54-55 | one pass of the mining loop, `nonce += 1; hash = calculate_hash()`; a definition with no contract, given meaning by `LessonOne.AttemptStep` |
| LessonOne.AttemptStep | lesson-one/src/main.rs:54-55 | one loop pass advances the nonce by one, keeps the other fields, and stores the hash for the new nonce |
| LessonOne.Mine | lesson-one/src/main.rs:49-59 | a finished search leaves a hash that meets the target, unchanged index/timestamp/data/previous hash, and a nonce between the start and start + fuel |
| LessonOne.MineStopsAtFirstHit | lesson-one/src/main.rs:53-56 | mining keeps a block whose hash already meets the target; otherwise it stops at the first nonce whose hash meets it and stores that block's own hash |
| LessonOne.MineGivesUpOnlyWhenNothingMeets | lesson-one/src/main.rs:53-56 | the bounded search fails iff neither the stored hash nor the hash at any nonce within fuel passes meets the target |
| LessonOne.MineBlock | lesson-one/src/main.rs:49-59 | the `while` loop computes exactly the reference search `Mine` |
| LessonOne.MineAtZeroDifficulty | lesson-one/src/main.rs:50-53 | at difficulty 0 mining changes nothing, so a fresh block keeps hash `""` and nonce 0 |
| LessonOne.MineIdempotent | lesson-one/src/main.rs:53 | mining an already mined block again at the same difficulty changes nothing |
| LessonOne.MineFreshBlock | lesson-one/src/main.rs:53-56 | on a fresh block at difficulty 1 or more the loop runs: the result's nonce is at least 1 and its hash is its recomputed hash |
| LessonOne.MineBeyondDigestLength | lesson-one/src/main.rs:50-56 | on a fresh block, with a 64-digit digest and difficulty above 64, no amount of fuel finishes the search |
| LessonOne.GenesisBlock | lesson-one/src/main.rs:81-85 | the genesis block has index 0, data "Genesis Block", previous hash "0", nonce 0, and a hash equal to its recomputed hash |
| LessonOne.NewChain | lesson-one/src/main.rs:70-78 | `Blockchain::new` holds exactly the genesis block, at difficulty 3, and passes validation |
| LessonOne.LatestBlock | lesson-one/src/main.rs:88-90 | `latest_block`: the last block of the chain; no contract beyond requiring a non-empty chain, where the source's `unwrap` panics; `LessonOne.AddBlock` states that the new block links to it |
| LessonOne.AddBlock | lesson-one/src/main.rs:93-100 | the chain grows by one block and the old blocks are untouched; the new block has index `len as u64`, links to the old last hash, carries the given data and time, and meets the difficulty; at difficulty 1 or more its hash is its own and its nonce is at least 1 |
| LessonOne.IsValid | lesson-one/src/main.rs:103-119 | the early-return loop returns true iff every block from index 1 on has its recomputed hash and names its predecessor's hash |
| LessonOne.GenesisEditUndetected | lesson-one/src/main.rs:104 | validation never rehashes block 0, so an edit of any one of the genesis block's hashed fields leaves a valid chain valid |
| LessonOne.EditDetected | lesson-one/src/main.rs:103-119 | under a collision-free digest, an edit of one of the five hashed fields of any block after genesis makes a valid chain invalid |
| LessonOne.StoredHashEditDetected | lesson-one/src/main.rs:109-110 | rewriting the stored hash of any block after genesis makes a valid chain invalid, for every digest |
| LessonOne.GenesisHashEditDetected | lesson-one/src/main.rs:114-115 | rewriting the genesis block's stored hash makes a valid chain of two or more blocks invalid, through block 1's link check |
| LessonOne.AddBlockPreservesValidity | lesson-one/src/main.rs:93-119 | at difficulty 1 or more, appending a block keeps a valid chain valid |
| LessonOne.ZeroDifficultyBreaksValidity | lesson-one/src/main.rs:93-119 | at difficulty 0 the appended block keeps the empty hash, so validation fails for any well-formed digest |
| LessonOne.AddBlocksKeepsInvariants | lesson-one/src/main.rs:93-100 | any run of appends keeps a valid chain valid, each block at index `i as u64` and every mined block meeting the difficulty, with the prefix unchanged |
| LessonOne.BuiltChainIsValid | lesson-one/src/main.rs:70-119 | starting from `Blockchain::new`, any run of `add_block` calls gives a chain that passes validation, with the genesis block first and every later block meeting difficulty 3 |
| LessonTwo.ToU32 | lesson-two/src/main.rs:103 | `len as u32` is the length itself below 2^32 and repeats with period 2^32 above |
| LessonTwo.NewBlock | lesson-two/src/main.rs:23-34 | `Block::new` stores index, data, previous hash and the clock reading as given, with an empty hash, nonce 0 and effort 0 |
| LessonTwo.CalculateHash | lesson-two/src/main.rs:36-52 | `calculate_hash`; a definition with no contract, given meaning by `LessonTwo.CalculateHashIgnoresEffort` and `LessonTwo.EditChangesHash` |
| LessonTwo.CalculateHashIgnoresEffort | lesson-two/src/main.rs:36-52 | the recomputed hash depends on neither the stored hash nor `effort_used` |
| LessonTwo.EditChangesHash | lesson-two/src/main.rs:36-52 | under a collision-free digest, an edit of one of the five hashed fields changes the block's recomputed hash |
| LessonTwo.Attempt | lesson-two/src/main.rs:59-61 | one pass of the mining loop, `effort_used += 1; nonce += 1; hash = calculate_hash()`; a definition with no contract, given meaning by `LessonTwo.AttemptStep` |
| LessonTwo.AttemptStep | lesson-two/src/main.rs:59-61 | one loop pass advances both `effort_used` and the nonce by one, keeps the other fields, and stores the hash for the new nonce |
| LessonTwo.Mine | lesson-two/src/main.rs:55-64 | a finished search leaves a hash meeting the target, unchanged content, a nonce within fuel of the start, and `effort_used - nonce` unchanged |
| LessonTwo.MineStopsAtFirstHit | lesson-two/src/main.rs:58-62 | mining keeps a block whose hash already meets the target; otherwise it stops at the first nonce whose hash meets it and stores that block's own hash |
| LessonTwo.MineGivesUpOnlyWhenNothingMeets | lesson-two/src/main.rs:58-62 | the bounded search fails iff neither the stored hash nor the hash at any nonce within fuel passes meets the target |
| LessonTwo.MineBlock | lesson-two/src/main.rs:55-64 | the `while` loop computes exactly `Mine`, keeps `effort_used - nonce` constant, and leaves the block's own hash once a pass has run |
| LessonTwo.MineAtZeroDifficulty | lesson-two/src/main.rs:57-58 | at difficulty 0 mining changes nothing, so a fresh block keeps hash `""`, nonce 0 and effort 0 |
| LessonTwo.MineIdempotent | lesson-two/src/main.rs:58 | mining an already mined block again at the same difficulty changes nothing |
| LessonTwo.MineFreshBlock | lesson-two/src/main.rs:58-62 | on a fresh block at difficulty 1 or more the loop runs: nonce at least 1, `effort_used == nonce`, and the hash is its recomputed hash |
| LessonTwo.MineBeyondDigestLength | lesson-two/src/main.rs:57-62 | on a fresh block, with a 64-digit digest and difficulty above 64, no amount of fuel finishes the search |
| LessonTwo.GenesisBlock | lesson-two/src/main.rs:91-95 | the genesis block has index 0, data "Genesis Block", previous hash "0", nonce 0, effort 0, and a hash equal to its recomputed hash |
| LessonTwo.NewChain | lesson-two/src/main.rs:81-89 | `Blockchain::new` holds exactly the never-mined genesis block, at difficulty 4, and passes validation |
| LessonTwo.ShortChainValid | lesson-two/src/main.rs:111-126 | a chain of at most one block always passes validation |
| LessonTwo.AddBlock | lesson-two/src/main.rs:101-108 | the chain grows by one block and the old blocks are untouched; the new block has index `len as u32` (wrapping above 2^32), links to the old last hash, carries the given data and time, meets the difficulty and has `effort_used == nonce`; at difficulty 1 or more its hash is its own and its nonce is at least 1 |
| LessonTwo.IsValid | lesson-two/src/main.rs:111-126 | the early-return loop returns true iff every block from index 1 on has its recomputed hash and names its predecessor's hash |
| LessonTwo.GenesisEditUndetected | lesson-two/src/main.rs:112 | validation never rehashes block 0, so an edit of any one of the genesis block's hashed fields leaves a valid chain valid |
| LessonTwo.EffortEditUndetected | lesson-two/src/main.rs:117 | rewriting `effort_used` on any block leaves a valid chain valid |
| LessonTwo.EditDetected | lesson-two/src/main.rs:111-126 | under a collision-free digest, an edit of one of the five hashed fields of any block after genesis makes a valid chain invalid (an `effort_used` edit is not one of them, see `LessonTwo.EffortEditUndetected`) |
| LessonTwo.StoredHashEditDetected | lesson-two/src/main.rs:117-118 | rewriting the stored hash of any block after genesis makes a valid chain invalid, for every digest |
| LessonTwo.GenesisHashEditDetected | lesson-two/src/main.rs:121-122 | rewriting the genesis block's stored hash makes a valid chain of two or more blocks invalid, through block 1's link check |
| LessonTwo.AddBlockPreservesValidity | lesson-two/src/main.rs:101-126 | at difficulty 1 or more, appending a block keeps a valid chain valid |
| LessonTwo.ZeroDifficultyBreaksValidity | lesson-two/src/main.rs:101-126 | at difficulty 0 the appended block keeps the empty hash, so validation fails for any well-formed digest |
| LessonTwo.AddBlocksKeepsInvariants | lesson-two/src/main.rs:101-108 | any run of appends keeps a valid chain valid, each block at index `i as u32` with `effort_used == nonce`, every mined block meeting the difficulty, and the prefix unchanged |
| LessonTwo.BuiltChainIsValid | lesson-two/src/main.rs:81-126 | starting from `Blockchain::new`, any run of `add_block` calls gives a chain that passes validation, with the genesis block first and every later block at index `i as u32`, with `effort_used == nonce` and meeting difficulty 4 |

## Left out

- SHA-256 of `block_data.as_bytes()` and the `{:x}` hex rendering (lesson-one/src/main.rs:41-45, lesson-two/src/main.rs:47-51) are the parameter `h`, which takes a string of Unicode scalar values: the UTF-8 encoding is folded into `h`. UTF-8 encoding is injective, so the `Injective` assumption is unaffected by the folding. Properties of the real digest are assumed only as the `WellFormed`/`Injective` preconditions of the lemmas that need them.
- `Utc::now()` is the parameter `now`. Nothing is claimed about timestamps beyond storing them.
- `println!` in `mine_block` and both `main` drivers are presentation only.
- `LessonOne.LatestBlock` models `latest_block` and has no contract of its own beyond its precondition (the source's `unwrap` panics on an empty chain). In lesson two `latest_block` returns `()` and is not modelled.
- lesson-three/src/main.rs (signed transactions) is not part of this model. It does not compile, and it relies on the `serde`/`serde_json`, `ed25519_dalek`, `rand` and `hex` crates, whose behaviour this model does not cover.
- LessonOne.Mine: a search is cut off after `fuel` passes and returns `None`, where the source keeps looping forever (for example at difficulty above 64). Only partial correctness of the unbounded loop is covered.
- LessonTwo.Mine: the same fuel bound as in lesson one.
- LessonOne.MineBlock: the same fuel bound; `None` stands for a loop that has not finished.
- LessonTwo.MineBlock: the same fuel bound.
- LessonOne.AddBlock: returns `None` when mining runs out of fuel. The source never returns in that case.
- LessonTwo.AddBlock: the same fuel bound.
- `nonce` and `effort_used` are unbounded naturals. The `u64` overflow after 2^64 attempts (a panic in debug builds, wrap-around in release builds) is not modelled.

=== FILE: hashing.dfy ===
/**
  What both lessons' `calculate_hash` and `mine_block` share: the digest
  function, the string a block hashes, and the proof-of-work target.

  SHA-256 followed by lowercase hex rendering is not modelled bit for bit. A
  block's hash is `h(preimage)` for a digest function `h: Hasher` that every
  operation receives as a parameter; the properties of SHA-256 a lemma relies
  on are stated as predicates on `h` in that lemma's `requires`.
 */
module Hashing {

  import opened Text

  /**
    SHA-256 of a string's UTF-8 bytes followed by `format!("{:x}", ...)`. The
    UTF-8 encoding is folded into the function.
   */
  type Hasher = string -> string

  /** `i64`, the type of `Utc::now().timestamp()` and of both lessons' block timestamps. */
  type I64 = x: int | -0x8000_0000_0000_0000 <= x < 0x8000_0000_0000_0000

  predicate IsLowerHex(s: string)
  {
    forall i :: 0 <= i < |s| ==> IsDigit(s[i]) || 'a' <= s[i] <= 'f'
  }

  /** What the real digest delivers: 64 lowercase hex characters for every input. */
  ghost predicate WellFormed(h: Hasher)
  {
    forall s :: |h(s)| == 64 && IsLowerHex(h(s))
  }

  /**
    Collision freedom, idealised. No function into 64-character strings is
    injective, so this is never required together with `WellFormed`; the
    tamper-detection lemmas assume it as an idealisation of SHA-256's
    collision resistance.
   */
  ghost predicate Injective(h: Hasher)
  {
    forall x, y :: h(x) == h(y) ==> x == y
  }

  /** The five block fields `calculate_hash` reads, in the order it formats them. */
  datatype HashedFields = HashedFields(index: int, timestamp: int, data: string, previousHash: string, nonce: int)

  /** `format!("{}{}{}{}{}", index, timestamp, data, previous_hash, nonce)`: no separators. */
  function Preimage(f: HashedFields): string
  {
    IntToDecimal(f.index) + IntToDecimal(f.timestamp) + f.data + f.previousHash + IntToDecimal(f.nonce)
  }

  /** `b` is `a` with at most one of the five fields replaced. */
  predicate SingleFieldEdit(a: HashedFields, b: HashedFields)
  {
    || a.(index := b.index) == b
    || a.(timestamp := b.timestamp) == b
    || a.(data := b.data) == b
    || a.(previousHash := b.previousHash) == b
    || a.(nonce := b.nonce) == b
  }

  /** Different middles between the same two strings give different strings. */
  lemma MiddleChangesWhole(p: string, x: string, y: string, s: string)
    requires x != y
    ensures p + x + s != p + y + s
  {
    if |x| == |y| {
      var k :| 0 <= k < |x| && x[k] != y[k];
      assert (p + x + s)[|p| + k] == x[k];
      assert (p + y + s)[|p| + k] == y[k];
    } else {
      assert |p + x + s| != |p + y + s|;
    }
  }

  /** Different numbers between the same two strings give different strings. */
  lemma NumberChangesWhole(p: string, x: int, y: int, s: string)
    requires x != y
    ensures p + IntToDecimal(x) + s != p + IntToDecimal(y) + s
  {
    if IntToDecimal(x) == IntToDecimal(y) {
      DecimalInjective(x, y);
    }
    MiddleChangesWhole(p, IntToDecimal(x), IntToDecimal(y), s);
  }

  lemma IndexEditChangesPreimage(a: HashedFields, i: int)
    requires a.index != i
    ensures Preimage(a) != Preimage(a.(index := i))
  {
    var rest := IntToDecimal(a.timestamp) + a.data + a.previousHash + IntToDecimal(a.nonce);
    assert Preimage(a) == [] + IntToDecimal(a.index) + rest;
    assert Preimage(a.(index := i)) == [] + IntToDecimal(i) + rest;
    NumberChangesWhole([], a.index, i, rest);
  }

  lemma TimestampEditChangesPreimage(a: HashedFields, t: int)
    requires a.timestamp != t
    ensures Preimage(a) != Preimage(a.(timestamp := t))
  {
    var rest := a.data + a.previousHash + IntToDecimal(a.nonce);
    assert Preimage(a) == IntToDecimal(a.index) + IntToDecimal(a.timestamp) + rest;
    assert Preimage(a.(timestamp := t)) == IntToDecimal(a.index) + IntToDecimal(t) + rest;
    NumberChangesWhole(IntToDecimal(a.index), a.timestamp, t, rest);
  }

  lemma DataEditChangesPreimage(a: HashedFields, d: string)
    requires a.data != d
    ensures Preimage(a) != Preimage(a.(data := d))
  {
    var front := IntToDecimal(a.index) + IntToDecimal(a.timestamp);
    var rest := a.previousHash + IntToDecimal(a.nonce);
    assert Preimage(a) == front + a.data + rest;
    assert Preimage(a.(data := d)) == front + d + rest;
    MiddleChangesWhole(front, a.data, d, rest);
  }

  lemma PreviousHashEditChangesPreimage(a: HashedFields, p: string)
    requires a.previousHash != p
    ensures Preimage(a) != Preimage(a.(previousHash := p))
  {
    MiddleChangesWhole(IntToDecimal(a.index) + IntToDecimal(a.timestamp) + a.data, a.previousHash, p, IntToDecimal(a.nonce));
  }

  lemma NonceEditChangesPreimage(a: HashedFields, n: int)
    requires a.nonce != n
    ensures Preimage(a) != Preimage(a.(nonce := n))
  {
    var front := IntToDecimal(a.index) + IntToDecimal(a.timestamp) + a.data + a.previousHash;
    assert Preimage(a) == front + IntToDecimal(a.nonce) + [];
    assert Preimage(a.(nonce := n)) == front + IntToDecimal(n) + [];
    NumberChangesWhole(front, a.nonce, n, []);
  }

  /**
    Changing exactly one hashed field always changes the preimage, despite the
    missing separators.
   */
  lemma SingleFieldEditChangesPreimage(a: HashedFields, b: HashedFields)
    requires a != b && SingleFieldEdit(a, b)
    ensures Preimage(a) != Preimage(b)
  {
    if a.(index := b.index) == b {
      IndexEditChangesPreimage(a, b.index);
    } else if a.(timestamp := b.timestamp) == b {
      TimestampEditChangesPreimage(a, b.timestamp);
    } else if a.(data := b.data) == b {
      DataEditChangesPreimage(a, b.data);
    } else if a.(previousHash := b.previousHash) == b {
      PreviousHashEditChangesPreimage(a, b.previousHash);
    } else {
      NonceEditChangesPreimage(a, b.nonce);
    }
  }

  /**
    Editing two fields at once can leave the preimage unchanged: index 1 with
    timestamp 23 and index 12 with timestamp 3 both start with "123".
   */
  lemma TwoFieldEditCanCollide(data: string, previousHash: string, nonce: int)
    ensures HashedFields(1, 23, data, previousHash, nonce) != HashedFields(12, 3, data, previousHash, nonce)
    ensures Preimage(HashedFields(1, 23, data, previousHash, nonce)) == Preimage(HashedFields(12, 3, data, previousHash, nonce))
  {
    assert IntToDecimal(1) == "1";
    assert IntToDecimal(3) == "3";
    assert IntToDecimal(23) == "23" by {
      assert NatToDecimal(23) == NatToDecimal(2) + [DigitChar(3)];
    }
    assert IntToDecimal(12) == "12" by {
      assert NatToDecimal(12) == NatToDecimal(1) + [DigitChar(2)];
    }
  }

  /** `"0".repeat(difficulty)`. */
  function Target(difficulty: nat): (t: string)
    ensures |t| == difficulty
  {
    Repeat('0', difficulty)
  }

  /** The mining loop's exit test: `hash.starts_with(&target)`. */
  predicate MeetsTarget(hash: string, difficulty: nat)
  {
    StartsWith(hash, Target(difficulty))
  }

  /** The exit test holds exactly when the hash opens with `difficulty` zero digits. */
  lemma MeetsTargetMeaning(hash: string, difficulty: nat)
    ensures MeetsTarget(hash, difficulty) <==>
            difficulty <= |hash| && forall i :: 0 <= i < difficulty ==> hash[i] == '0'
  {
    var t := Target(difficulty);
    if difficulty <= |hash| && forall i :: 0 <= i < difficulty ==> hash[i] == '0' {
      assert hash[..difficulty] == t;
    }
  }

  /** An unmined block's empty hash passes the exit test only at difficulty 0. */
  lemma EmptyHashMeetsOnlyZero(difficulty: nat)
    ensures MeetsTarget("", difficulty) <==> difficulty == 0
  {
  }

  /** A 64-digit hash never meets a target of more than 64 zeros. */
  lemma WellFormedMissesLongTargets(h: Hasher, s: string, difficulty: nat)
    requires WellFormed(h) && difficulty > 64
    ensures !MeetsTarget(h(s), difficulty)
  {
  }

  /** A well-formed digest is never the empty string an unmined block carries. */
  lemma WellFormedNeverEmpty(h: Hasher, s: string)
    requires WellFormed(h)
    ensures h(s) != ""
  {
  }
}

=== FILE: lesson_one.dfy ===
/**
  The first lesson's chain (lesson-one/src/main.rs): blocks with a `u64`
  index, mined at difficulty 3, linked by `previous_hash`.

  A block is an immutable value; where the source mutates a block in place
  (`mine_block`, setting the genesis hash) the model returns the updated
  block. The clock reading `Utc::now().timestamp()` is the parameter `now`,
  and the SHA-256 digest is the parameter `h`.
 */
module LessonOne {

  import opened Options
  import opened Text
  import opened Hashing

  type U64 = x: int | 0 <= x < 0x1_0000_0000_0000_0000

  /**
    `chain.len() as u64`. A `usize` holds less than 2^64 on every Rust target,
    so the cast is lossless for every length the source can reach; the
    reduction above 2^64 only closes the model over unbounded lengths.
   */
  function ToU64(n: nat): (r: U64)
    ensures n < 0x1_0000_0000_0000_0000 ==> r == n
    ensures n >= 0x1_0000_0000_0000_0000 ==> r == ToU64(n - 0x1_0000_0000_0000_0000)
  {
    n % 0x1_0000_0000_0000_0000
  }

  /** The leading zero digits `Blockchain::new` asks of every mined block. */
  const DIFFICULTY: nat := 3
  const GENESIS_DATA: string := "Genesis Block"
  const GENESIS_PREVIOUS_HASH: string := "0"

  /** `nonce` is a `u64` in the source; its overflow after 2^64 attempts is not modelled. */
  datatype Block = Block(index: U64, timestamp: I64, data: string, previousHash: string, hash: string, nonce: nat)

  /** The state `Block::new` leaves a block in. */
  predicate Unmined(b: Block)
  {
    b.hash == "" && b.nonce == 0
  }

  /** Index, timestamp, data and previous hash: what mining never touches. */
  predicate SameContent(a: Block, b: Block)
  {
    a.index == b.index && a.timestamp == b.timestamp && a.data == b.data && a.previousHash == b.previousHash
  }

  /** `Block::new`: stores what it is given and does not mine. */
  function NewBlock(index: U64, data: string, previousHash: string, now: I64): (b: Block)
    ensures Unmined(b)
    ensures b.index == index && b.timestamp == now && b.data == data && b.previousHash == previousHash
  {
    Block(index, now, data, previousHash, "", 0)
  }

  function Fields(b: Block): HashedFields
  {
    HashedFields(b.index, b.timestamp, b.data, b.previousHash, b.nonce)
  }

  /** `calculate_hash`: the digest of the block's five formatted fields. */
  function CalculateHash(b: Block, h: Hasher): string
  {
    h(Preimage(Fields(b)))
  }

  /** The hash `calculate_hash` gives once `nonce` is set to `k`. */
  function HashWithNonce(b: Block, k: nat, h: Hasher): string
  {
    h(Preimage(Fields(b).(nonce := k)))
  }

  /** `calculate_hash` reads neither `hash` nor anything but the five formatted fields. */
  lemma CalculateHashReadsFiveFields(a: Block, b: Block, h: Hasher)
    requires SameContent(a, b) && a.nonce == b.nonce
    ensures CalculateHash(a, h) == CalculateHash(b, h)
    ensures CalculateHash(a, h) == HashWithNonce(b, a.nonce, h)
  {
  }

  /** An edit of one of the five hashed fields of a block, as someone tampering with a stored block would make. */
  datatype Edit =
    | SetIndex(index: U64)
    | SetTimestamp(timestamp: I64)
    | SetData(data: string)
    | SetPreviousHash(previousHash: string)
    | SetNonce(nonce: nat)

  function ApplyEdit(b: Block, e: Edit): (t: Block)
    ensures t.hash == b.hash
    ensures SingleFieldEdit(Fields(b), Fields(t))
  {
    match e
    case SetIndex(i) => b.(index := i)
    case SetTimestamp(ts) => b.(timestamp := ts)
    case SetData(d) => b.(data := d)
    case SetPreviousHash(p) => b.(previousHash := p)
    case SetNonce(n) => b.(nonce := n)
  }

  /** Under a collision-free digest, an edit of one of the five hashed fields changes the recomputed hash. */
  lemma EditChangesHash(b: Block, e: Edit, h: Hasher)
    requires Injective(h)
    requires ApplyEdit(b, e) != b
    ensures CalculateHash(ApplyEdit(b, e), h) != CalculateHash(b, h)
  {
    var t := ApplyEdit(b, e);
    assert Fields(t) != Fields(b);
    SingleFieldEditChangesPreimage(Fields(b), Fields(t));
  }

  // ---------- Mining ----------

  /** One pass of the mining loop: `nonce += 1; hash = calculate_hash()`. */
  function Attempt(b: Block, h: Hasher): (r: Block)
  {
    var next := b.(nonce := b.nonce + 1);
    next.(hash := CalculateHash(next, h))
  }

  /** One pass moves to the next nonce and stores its hash; the hash at any other nonce is unaffected. */
  lemma AttemptStep(b: Block, h: Hasher)
    ensures SameContent(Attempt(b, h), b) && Attempt(b, h).nonce == b.nonce + 1
    ensures Attempt(b, h).hash == HashWithNonce(b, b.nonce + 1, h)
    ensures forall k: nat :: HashWithNonce(Attempt(b, h), k, h) == HashWithNonce(b, k, h)
  {
  }

  /**
    `mine_block(difficulty)` allowed at most `fuel` passes of its loop.
    `None` means the loop would still be running after `fuel` passes.
   */
  function Mine(b: Block, difficulty: nat, h: Hasher, fuel: nat): (r: Option<Block>)
    ensures r.Some? ==> MeetsTarget(r.value.hash, difficulty) && SameContent(r.value, b)
    ensures r.Some? ==> b.nonce <= r.value.nonce <= b.nonce + fuel
    decreases fuel
  {
    if MeetsTarget(b.hash, difficulty) then Some(b)
    else if fuel == 0 then None
    else Mine(Attempt(b, h), difficulty, h, fuel - 1)
  }

  /**
    Mining keeps a block that already meets the target; otherwise it stops at
    the first nonce above the start whose hash meets the target, and stores
    that nonce's hash.
   */
  lemma {:induction false} MineStopsAtFirstHit(b: Block, difficulty: nat, h: Hasher, fuel: nat)
    requires Mine(b, difficulty, h, fuel).Some?
    ensures var m := Mine(b, difficulty, h, fuel).value;
            && (MeetsTarget(b.hash, difficulty) ==> m == b)
            && (m.nonce == b.nonce ==> m == b)
            && (m.nonce > b.nonce ==> m.hash == CalculateHash(m, h))
            && forall k :: b.nonce < k < m.nonce ==> !MeetsTarget(HashWithNonce(b, k, h), difficulty)
    decreases fuel
  {
    if !MeetsTarget(b.hash, difficulty) {
      AttemptStep(b, h);
      MineStopsAtFirstHit(Attempt(b, h), difficulty, h, fuel - 1);
    }
  }

  /**
    Mining gives up exactly when neither the stored hash nor the hash at any
    nonce within reach of `fuel` passes meets the target.
   */
  lemma {:induction false} MineGivesUpOnlyWhenNothingMeets(b: Block, difficulty: nat, h: Hasher, fuel: nat)
    ensures Mine(b, difficulty, h, fuel).None? <==>
            && !MeetsTarget(b.hash, difficulty)
            && forall k :: b.nonce < k <= b.nonce + fuel ==> !MeetsTarget(HashWithNonce(b, k, h), difficulty)
    decreases fuel
  {
    if !MeetsTarget(b.hash, difficulty) && fuel > 0 {
      AttemptStep(b, h);
      MineGivesUpOnlyWhenNothingMeets(Attempt(b, h), difficulty, h, fuel - 1);
    }
  }

  /** The loop's exit test decides whether `Mine` stops or takes one more pass. */
  lemma MineUnfold(b: Block, difficulty: nat, h: Hasher, fuel: nat)
    ensures MeetsTarget(b.hash, difficulty) ==> Mine(b, difficulty, h, fuel) == Some(b)
    ensures !MeetsTarget(b.hash, difficulty) && fuel > 0 ==>
              Mine(b, difficulty, h, fuel) == Mine(Attempt(b, h), difficulty, h, fuel - 1)
    ensures !MeetsTarget(b.hash, difficulty) && fuel == 0 ==> Mine(b, difficulty, h, fuel) == None
  {
  }

  /** `mine_block` with its `while` loop, stopped after `fuel` passes. */
  method MineBlock(b: Block, difficulty: nat, h: Hasher, fuel: nat) returns (r: Option<Block>)
    ensures r == Mine(b, difficulty, h, fuel)
  {
    ghost var outcome := Mine(b, difficulty, h, fuel);
    var block := b;
    var left := fuel;
    while !MeetsTarget(block.hash, difficulty)
      invariant Mine(block, difficulty, h, left) == outcome
      decreases left
    {
      MineUnfold(block, difficulty, h, left);
      if left == 0 {
        return None;
      }
      block := Attempt(block, h);
      left := left - 1;
    }
    MineUnfold(block, difficulty, h, left);
    return Some(block);
  }

  /** At difficulty 0 the loop never runs: a fresh block keeps `hash == ""` and `nonce == 0`. */
  lemma MineAtZeroDifficulty(b: Block, h: Hasher, fuel: nat)
    ensures Mine(b, 0, h, fuel) == Some(b)
  {
  }

  /** Mining a block that already meets the target changes nothing, so mining twice is mining once. */
  lemma MineIdempotent(b: Block, difficulty: nat, h: Hasher, fuel: nat, again: nat)
    requires Mine(b, difficulty, h, fuel).Some?
    ensures Mine(Mine(b, difficulty, h, fuel).value, difficulty, h, again) == Mine(b, difficulty, h, fuel)
  {
  }

  /** On a fresh block at difficulty 1 or more the loop runs: the hash is the block's own and `nonce >= 1`. */
  lemma MineFreshBlock(b: Block, difficulty: nat, h: Hasher, fuel: nat)
    requires Unmined(b) && difficulty >= 1
    requires Mine(b, difficulty, h, fuel).Some?
    ensures Mine(b, difficulty, h, fuel).value.nonce >= 1
    ensures Mine(b, difficulty, h, fuel).value.hash == CalculateHash(Mine(b, difficulty, h, fuel).value, h)
  {
    EmptyHashMeetsOnlyZero(difficulty);
    MineStopsAtFirstHit(b, difficulty, h, fuel);
  }

  /** With a 64-digit digest and more than 64 required zeros, mining a fresh block never ends. */
  lemma MineBeyondDigestLength(b: Block, difficulty: nat, h: Hasher, fuel: nat)
    requires WellFormed(h) && Unmined(b) && difficulty > 64
    ensures Mine(b, difficulty, h, fuel).None?
  {
    EmptyHashMeetsOnlyZero(difficulty);
    MineGivesUpOnlyWhenNothingMeets(b, difficulty, h, fuel);
    forall k | b.nonce < k <= b.nonce + fuel
      ensures !MeetsTarget(HashWithNonce(b, k, h), difficulty)
    {
      WellFormedMissesLongTargets(h, Preimage(Fields(b).(nonce := k)), difficulty);
    }
  }

  // ---------- Blockchain ----------

  /** `Blockchain`: the blocks, genesis first, and the difficulty new blocks are mined at. */
  datatype Blockchain = Blockchain(chain: seq<Block>, difficulty: nat)

  /** `create_genesis_block`'s block: hashed once, never mined. */
  function GenesisBlock(now: I64, h: Hasher): (g: Block)
    ensures g.index == 0 && g.timestamp == now && g.data == GENESIS_DATA
    ensures g.previousHash == GENESIS_PREVIOUS_HASH && g.nonce == 0
    ensures g.hash == CalculateHash(g, h)
  {
    var genesis := NewBlock(0, GENESIS_DATA, GENESIS_PREVIOUS_HASH, now);
    genesis.(hash := CalculateHash(genesis, h))
  }

  /** `Blockchain::new`. */
  function NewChain(now: I64, h: Hasher): (bc: Blockchain)
    ensures |bc.chain| == 1 && bc.chain[0] == GenesisBlock(now, h)
    ensures bc.difficulty == DIFFICULTY
    ensures ChainValid(bc.chain, h)
  {
    Blockchain([GenesisBlock(now, h)], DIFFICULTY)
  }

  /** `latest_block`: the last block; the source's `unwrap` panics on an empty chain. */
  function LatestBlock(bc: Blockchain): Block
    requires |bc.chain| > 0
  {
    bc.chain[|bc.chain| - 1]
  }

  /** Block `i` carries its own recomputed hash and names block `i - 1` as its parent. */
  predicate LinkValid(c: seq<Block>, i: nat, h: Hasher)
    requires 1 <= i < |c|
  {
    c[i].hash == CalculateHash(c[i], h) && c[i].previousHash == c[i - 1].hash
  }

  /** Every block after the genesis block passes both of `is_valid`'s checks. */
  predicate ChainValid(c: seq<Block>, h: Hasher)
  {
    forall i :: 1 <= i < |c| ==> LinkValid(c, i, h)
  }

  /**
    `add_block`: a block at index `len` naming the last block's hash, mined at
    the chain's difficulty with at most `fuel` passes, then pushed.
   */
  function AddBlock(bc: Blockchain, data: string, now: I64, h: Hasher, fuel: nat): (r: Option<Blockchain>)
    requires |bc.chain| > 0
    ensures r.Some? ==> r.value.difficulty == bc.difficulty
    ensures r.Some? ==> |r.value.chain| == |bc.chain| + 1 && r.value.chain[..|bc.chain|] == bc.chain
    ensures r.Some? ==>
              var b := r.value.chain[|bc.chain|];
              && b.index == ToU64(|bc.chain|)
              && b.previousHash == bc.chain[|bc.chain| - 1].hash
              && b.data == data && b.timestamp == now
              && MeetsTarget(b.hash, bc.difficulty)
    ensures r.Some? && bc.difficulty >= 1 ==>
              var b := r.value.chain[|bc.chain|];
              b.nonce >= 1 && b.hash == CalculateHash(b, h)
    ensures r.None? ==> bc.difficulty >= 1
  {
    var unmined := NewBlock(ToU64(|bc.chain|), data, LatestBlock(bc).hash, now);
    EmptyHashMeetsOnlyZero(bc.difficulty);
    match Mine(unmined, bc.difficulty, h, fuel)
    case None => None
    case Some(mined) =>
      MineStopsAtFirstHit(unmined, bc.difficulty, h, fuel);
      Some(bc.(chain := bc.chain + [mined]))
  }

  /** `is_valid`: walks blocks 1.. and returns false at the first bad hash or broken link. */
  method IsValid(bc: Blockchain, h: Hasher) returns (valid: bool)
    ensures valid <==> ChainValid(bc.chain, h)
  {
    var i := 1;
    while i < |bc.chain|
      invariant 1 <= i
      invariant forall j :: 1 <= j < i && j < |bc.chain| ==> LinkValid(bc.chain, j, h)
    {
      var prev := bc.chain[i - 1];
      var curr := bc.chain[i];
      if curr.hash != CalculateHash(curr, h) {
        assert !LinkValid(bc.chain, i, h);
        return false;
      }
      if curr.previousHash != prev.hash {
        assert !LinkValid(bc.chain, i, h);
        return false;
      }
      i := i + 1;
    }
    return true;
  }

  /** `is_valid` never rehashes block 0: an edit of one of the genesis block's five hashed fields goes unnoticed. */
  lemma GenesisEditUndetected(c: seq<Block>, e: Edit, h: Hasher)
    requires |c| >= 1 && ChainValid(c, h)
    ensures ChainValid(c[0 := ApplyEdit(c[0], e)], h)
  {
    var t := c[0 := ApplyEdit(c[0], e)];
    forall i | 1 <= i < |t|
      ensures LinkValid(t, i, h)
    {
      assert LinkValid(c, i, h);
    }
  }

  /** Under a collision-free digest, an edit of one of the five hashed fields of a block after genesis makes the chain invalid. */
  lemma EditDetected(c: seq<Block>, i: nat, e: Edit, h: Hasher)
    requires ChainValid(c, h) && 1 <= i < |c|
    requires Injective(h)
    requires ApplyEdit(c[i], e) != c[i]
    ensures !ChainValid(c[i := ApplyEdit(c[i], e)], h)
  {
    assert LinkValid(c, i, h);
    EditChangesHash(c[i], e, h);
    assert !LinkValid(c[i := ApplyEdit(c[i], e)], i, h);
  }

  /** Rewriting the stored hash of a block after genesis breaks that block's own rehash check; no digest assumption is needed. */
  lemma StoredHashEditDetected(c: seq<Block>, i: nat, hash: string, h: Hasher)
    requires ChainValid(c, h) && 1 <= i < |c|
    requires hash != c[i].hash
    ensures !ChainValid(c[i := c[i].(hash := hash)], h)
  {
    assert LinkValid(c, i, h);
    assert CalculateHash(c[i].(hash := hash), h) == CalculateHash(c[i], h);
    assert !LinkValid(c[i := c[i].(hash := hash)], i, h);
  }

  /** Rewriting the genesis block's stored hash is caught by block 1's link check. */
  lemma GenesisHashEditDetected(c: seq<Block>, hash: string, h: Hasher)
    requires ChainValid(c, h) && |c| >= 2
    requires hash != c[0].hash
    ensures !ChainValid(c[0 := c[0].(hash := hash)], h)
  {
    assert LinkValid(c, 1, h);
    assert !LinkValid(c[0 := c[0].(hash := hash)], 1, h);
  }

  /** A block appended at difficulty 1 or more keeps a valid chain valid. */
  lemma AddBlockPreservesValidity(bc: Blockchain, data: string, now: I64, h: Hasher, fuel: nat)
    requires |bc.chain| > 0 && bc.difficulty >= 1 && ChainValid(bc.chain, h)
    requires AddBlock(bc, data, now, h, fuel).Some?
    ensures ChainValid(AddBlock(bc, data, now, h, fuel).value.chain, h)
  {
    var c := AddBlock(bc, data, now, h, fuel).value.chain;
    forall i | 1 <= i < |c|
      ensures LinkValid(c, i, h)
    {
      if i < |bc.chain| {
        assert LinkValid(bc.chain, i, h);
        assert c[i] == bc.chain[i] && c[i - 1] == bc.chain[i - 1];
      } else {
        assert c[i - 1] == bc.chain[|bc.chain| - 1];
      }
    }
  }

  /**
    At difficulty 0 the appended block keeps the empty hash, which no
    well-formed digest equals, so `is_valid` rejects the chain.
   */
  lemma ZeroDifficultyBreaksValidity(bc: Blockchain, data: string, now: I64, h: Hasher, fuel: nat)
    requires |bc.chain| > 0 && bc.difficulty == 0 && WellFormed(h)
    ensures AddBlock(bc, data, now, h, fuel).Some?
    ensures !ChainValid(AddBlock(bc, data, now, h, fuel).value.chain, h)
  {
    var unmined := NewBlock(ToU64(|bc.chain|), data, LatestBlock(bc).hash, now);
    MineAtZeroDifficulty(unmined, h, fuel);
    var c := AddBlock(bc, data, now, h, fuel).value.chain;
    WellFormedNeverEmpty(h, Preimage(Fields(c[|bc.chain|])));
    assert !LinkValid(c, |bc.chain|, h);
  }

  /** `add_block` called once per entry, in order; `None` if any search runs out of fuel. */
  function AddBlocks(bc: Blockchain, entries: seq<(string, I64)>, h: Hasher, fuel: nat): (r: Option<Blockchain>)
    requires |bc.chain| > 0
    decreases |entries|
  {
    if |entries| == 0 then Some(bc)
    else match AddBlock(bc, entries[0].0, entries[0].1, h, fuel)
      case None => None
      case Some(next) => AddBlocks(next, entries[1..], h, fuel)
  }

  /** Block `i` sits at index `i` (as a `u64`) and, after genesis, meets the chain's target. */
  predicate WellMined(bc: Blockchain)
  {
    && |bc.chain| > 0
    && (forall i :: 0 <= i < |bc.chain| ==> bc.chain[i].index == ToU64(i))
    && (forall i :: 1 <= i < |bc.chain| ==> MeetsTarget(bc.chain[i].hash, bc.difficulty))
  }

  /** Appending entries keeps a valid, well-mined chain valid and well-mined, and never touches its prefix. */
  lemma {:induction false} AddBlocksKeepsInvariants(bc: Blockchain, entries: seq<(string, I64)>, h: Hasher, fuel: nat)
    requires WellMined(bc) && bc.difficulty >= 1 && ChainValid(bc.chain, h)
    requires AddBlocks(bc, entries, h, fuel).Some?
    ensures var r := AddBlocks(bc, entries, h, fuel).value;
            && WellMined(r) && ChainValid(r.chain, h)
            && |r.chain| == |bc.chain| + |entries| && r.chain[..|bc.chain|] == bc.chain
            && r.difficulty == bc.difficulty
    decreases |entries|
  {
    if |entries| > 0 {
      var next := AddBlock(bc, entries[0].0, entries[0].1, h, fuel).value;
      AddBlockPreservesValidity(bc, entries[0].0, entries[0].1, h, fuel);
      assert WellMined(next) by {
        forall i | 0 <= i < |next.chain|
          ensures next.chain[i].index == ToU64(i)
        {
          if i < |bc.chain| {
            assert next.chain[i] == bc.chain[i];
          }
        }
        forall i | 1 <= i < |next.chain|
          ensures MeetsTarget(next.chain[i].hash, next.difficulty)
        {
          if i < |bc.chain| {
            assert next.chain[i] == bc.chain[i];
          }
        }
      }
      AddBlocksKeepsInvariants(next, entries[1..], h, fuel);
      var r := AddBlocks(next, entries[1..], h, fuel).value;
      assert r.chain[..|bc.chain|] == r.chain[..|next.chain|][..|bc.chain|];
    }
  }

  /**
    From `Blockchain::new()`, any run of `add_block` calls gives a chain that
    `is_valid` accepts, with the genesis block still first and every later
    block at its own position and meeting difficulty 3.
   */
  lemma BuiltChainIsValid(now: I64, entries: seq<(string, I64)>, h: Hasher, fuel: nat)
    requires AddBlocks(NewChain(now, h), entries, h, fuel).Some?
    ensures var r := AddBlocks(NewChain(now, h), entries, h, fuel).value;
            && ChainValid(r.chain, h)
            && |r.chain| == 1 + |entries| && r.chain[0] == GenesisBlock(now, h)
            && r.difficulty == DIFFICULTY
            && forall i :: 1 <= i < |r.chain| ==> r.chain[i].index == ToU64(i) && MeetsTarget(r.chain[i].hash, DIFFICULTY)
  {
    var bc := NewChain(now, h);
    AddBlocksKeepsInvariants(bc, entries, h, fuel);
    var r := AddBlocks(bc, entries, h, fuel).value;
    assert r.chain[0] == r.chain[..1][0];
  }
}

=== FILE: lesson_two.dfy ===
/**
  The second lesson's chain (lesson-two/src/main.rs): the first lesson's
  design with a `u32` index, difficulty 4, and an `effort_used` counter of
  mining attempts.

  As in `LessonOne`, blocks are immutable values, the clock reading is the
  parameter `now` and the SHA-256 digest is the parameter `h`.
 */
module LessonTwo {

  import opened Options
  import opened Text
  import opened Hashing

  type U32 = x: int | 0 <= x < 0x1_0000_0000

  /** `chain.len() as u32`: lossless below 2^32, wrapping above. */
  function ToU32(n: nat): (r: U32)
    ensures n < 0x1_0000_0000 ==> r == n
    ensures n >= 0x1_0000_0000 ==> r == ToU32(n - 0x1_0000_0000)
  {
    n % 0x1_0000_0000
  }

  /** The leading zero digits `Blockchain::new` asks of every mined block. */
  const DIFFICULTY: nat := 4
  const GENESIS_DATA: string := "Genesis Block"
  const GENESIS_PREVIOUS_HASH: string := "0"

  /**
    The struct's fields in declaration order. `nonce` and `effort_used` are
    `u64` in the source; their overflow after 2^64 attempts is not modelled.
   */
  datatype Block = Block(index: U32, data: string, timestamp: I64, previousHash: string, hash: string, nonce: nat, effortUsed: nat)

  /** The state `Block::new` leaves a block in. */
  predicate Unmined(b: Block)
  {
    b.hash == "" && b.nonce == 0 && b.effortUsed == 0
  }

  /** Index, data, timestamp and previous hash: what mining never touches. */
  predicate SameContent(a: Block, b: Block)
  {
    a.index == b.index && a.data == b.data && a.timestamp == b.timestamp && a.previousHash == b.previousHash
  }

  /** `Block::new`: stores what it is given and does not mine. */
  function NewBlock(index: U32, data: string, previousHash: string, now: I64): (b: Block)
    ensures Unmined(b)
    ensures b.index == index && b.data == data && b.timestamp == now && b.previousHash == previousHash
  {
    Block(index, data, now, previousHash, "", 0, 0)
  }

  function Fields(b: Block): HashedFields
  {
    HashedFields(b.index, b.timestamp, b.data, b.previousHash, b.nonce)
  }

  /** `calculate_hash`: the digest of the block's five formatted fields. */
  function CalculateHash(b: Block, h: Hasher): string
  {
    h(Preimage(Fields(b)))
  }

  /** The hash `calculate_hash` gives once `nonce` is set to `k`. */
  function HashWithNonce(b: Block, k: nat, h: Hasher): string
  {
    h(Preimage(Fields(b).(nonce := k)))
  }

  /** `calculate_hash` reads neither `hash` nor `effort_used`: the attempt count never changes the hash. */
  lemma CalculateHashIgnoresEffort(b: Block, effort: nat, stored: string, h: Hasher)
    ensures CalculateHash(b.(effortUsed := effort, hash := stored), h) == CalculateHash(b, h)
    ensures CalculateHash(b, h) == HashWithNonce(b, b.nonce, h)
  {
  }

  /** An edit of one of the five hashed fields of a block, as someone tampering with a stored block would make. */
  datatype Edit =
    | SetIndex(index: U32)
    | SetData(data: string)
    | SetTimestamp(timestamp: I64)
    | SetPreviousHash(previousHash: string)
    | SetNonce(nonce: nat)

  function ApplyEdit(b: Block, e: Edit): (t: Block)
    ensures t.hash == b.hash && t.effortUsed == b.effortUsed
    ensures SingleFieldEdit(Fields(b), Fields(t))
  {
    match e
    case SetIndex(i) => b.(index := i)
    case SetData(d) => b.(data := d)
    case SetTimestamp(ts) => b.(timestamp := ts)
    case SetPreviousHash(p) => b.(previousHash := p)
    case SetNonce(n) => b.(nonce := n)
  }

  /** Under a collision-free digest, an edit of one of the five hashed fields changes the recomputed hash. */
  lemma EditChangesHash(b: Block, e: Edit, h: Hasher)
    requires Injective(h)
    requires ApplyEdit(b, e) != b
    ensures CalculateHash(ApplyEdit(b, e), h) != CalculateHash(b, h)
  {
    var t := ApplyEdit(b, e);
    assert Fields(t) != Fields(b);
    SingleFieldEditChangesPreimage(Fields(b), Fields(t));
  }

  // ---------- Mining ----------

  /** One pass of the mining loop: `effort_used += 1; nonce += 1; hash = calculate_hash()`. */
  function Attempt(b: Block, h: Hasher): (r: Block)
  {
    var next := b.(effortUsed := b.effortUsed + 1, nonce := b.nonce + 1);
    next.(hash := CalculateHash(next, h))
  }

  /** One pass moves both counters on by one and stores the next nonce's hash; other nonces' hashes are unaffected. */
  lemma AttemptStep(b: Block, h: Hasher)
    ensures SameContent(Attempt(b, h), b) && Attempt(b, h).nonce == b.nonce + 1
    ensures Attempt(b, h).effortUsed == b.effortUsed + 1
    ensures Attempt(b, h).hash == HashWithNonce(b, b.nonce + 1, h)
    ensures forall k: nat :: HashWithNonce(Attempt(b, h), k, h) == HashWithNonce(b, k, h)
  {
  }

  /**
    `mine_block(difficulty)` allowed at most `fuel` passes of its loop.
    `None` means the loop would still be running after `fuel` passes.
   */
  function Mine(b: Block, difficulty: nat, h: Hasher, fuel: nat): (r: Option<Block>)
    ensures r.Some? ==> MeetsTarget(r.value.hash, difficulty) && SameContent(r.value, b)
    ensures r.Some? ==> b.nonce <= r.value.nonce <= b.nonce + fuel
    ensures r.Some? ==> r.value.effortUsed - r.value.nonce == b.effortUsed - b.nonce
    decreases fuel
  {
    if MeetsTarget(b.hash, difficulty) then Some(b)
    else if fuel == 0 then None
    else Mine(Attempt(b, h), difficulty, h, fuel - 1)
  }

  /**
    Mining keeps a block that already meets the target; otherwise it stops at
    the first nonce above the start whose hash meets the target, and stores
    that nonce's hash.
   */
  lemma {:induction false} MineStopsAtFirstHit(b: Block, difficulty: nat, h: Hasher, fuel: nat)
    requires Mine(b, difficulty, h, fuel).Some?
    ensures var m := Mine(b, difficulty, h, fuel).value;
            && (MeetsTarget(b.hash, difficulty) ==> m == b)
            && (m.nonce == b.nonce ==> m == b)
            && (m.nonce > b.nonce ==> m.hash == CalculateHash(m, h))
            && forall k :: b.nonce < k < m.nonce ==> !MeetsTarget(HashWithNonce(b, k, h), difficulty)
    decreases fuel
  {
    if !MeetsTarget(b.hash, difficulty) {
      AttemptStep(b, h);
      MineStopsAtFirstHit(Attempt(b, h), difficulty, h, fuel - 1);
    }
  }

  /**
    Mining gives up exactly when neither the stored hash nor the hash at any
    nonce within reach of `fuel` passes meets the target.
   */
  lemma {:induction false} MineGivesUpOnlyWhenNothingMeets(b: Block, difficulty: nat, h: Hasher, fuel: nat)
    ensures Mine(b, difficulty, h, fuel).None? <==>
            && !MeetsTarget(b.hash, difficulty)
            && forall k :: b.nonce < k <= b.nonce + fuel ==> !MeetsTarget(HashWithNonce(b, k, h), difficulty)
    decreases fuel
  {
    if !MeetsTarget(b.hash, difficulty) && fuel > 0 {
      AttemptStep(b, h);
      MineGivesUpOnlyWhenNothingMeets(Attempt(b, h), difficulty, h, fuel - 1);
    }
  }

  /** The loop's exit test decides whether `Mine` stops or takes one more pass. */
  lemma MineUnfold(b: Block, difficulty: nat, h: Hasher, fuel: nat)
    ensures MeetsTarget(b.hash, difficulty) ==> Mine(b, difficulty, h, fuel) == Some(b)
    ensures !MeetsTarget(b.hash, difficulty) && fuel > 0 ==>
              Mine(b, difficulty, h, fuel) == Mine(Attempt(b, h), difficulty, h, fuel - 1)
    ensures !MeetsTarget(b.hash, difficulty) && fuel == 0 ==> Mine(b, difficulty, h, fuel) == None
  {
  }

  /**
    `mine_block` with its `while` loop, stopped after `fuel` passes. The two
    counters move in step, so their difference never changes; the block's
    hash is its own recomputed hash as soon as one pass has run.
   */
  method MineBlock(b: Block, difficulty: nat, h: Hasher, fuel: nat) returns (r: Option<Block>)
    ensures r == Mine(b, difficulty, h, fuel)
    ensures r.Some? ==> r.value.effortUsed - r.value.nonce == b.effortUsed - b.nonce
    ensures r.Some? && r.value.nonce > b.nonce ==> r.value.hash == CalculateHash(r.value, h)
  {
    ghost var outcome := Mine(b, difficulty, h, fuel);
    var block := b;
    var left := fuel;
    while !MeetsTarget(block.hash, difficulty)
      invariant Mine(block, difficulty, h, left) == outcome
      invariant block.effortUsed - block.nonce == b.effortUsed - b.nonce
      invariant block.nonce == b.nonce || block.hash == CalculateHash(block, h)
      invariant block.nonce >= b.nonce
      decreases left
    {
      MineUnfold(block, difficulty, h, left);
      if left == 0 {
        return None;
      }
      block := Attempt(block, h);
      left := left - 1;
    }
    MineUnfold(block, difficulty, h, left);
    return Some(block);
  }

  /** At difficulty 0 the loop never runs: a fresh block keeps `hash == ""`, `nonce == 0` and `effort_used == 0`. */
  lemma MineAtZeroDifficulty(b: Block, h: Hasher, fuel: nat)
    ensures Mine(b, 0, h, fuel) == Some(b)
  {
  }

  /** Mining a block that already meets the target changes nothing, so mining twice is mining once. */
  lemma MineIdempotent(b: Block, difficulty: nat, h: Hasher, fuel: nat, again: nat)
    requires Mine(b, difficulty, h, fuel).Some?
    ensures Mine(Mine(b, difficulty, h, fuel).value, difficulty, h, again) == Mine(b, difficulty, h, fuel)
  {
  }

  /**
    On a fresh block at difficulty 1 or more the loop runs: the hash is the
    block's own, `nonce >= 1`, and `effort_used` counts exactly the attempts.
   */
  lemma MineFreshBlock(b: Block, difficulty: nat, h: Hasher, fuel: nat)
    requires Unmined(b) && difficulty >= 1
    requires Mine(b, difficulty, h, fuel).Some?
    ensures Mine(b, difficulty, h, fuel).value.nonce >= 1
    ensures Mine(b, difficulty, h, fuel).value.effortUsed == Mine(b, difficulty, h, fuel).value.nonce
    ensures Mine(b, difficulty, h, fuel).value.hash == CalculateHash(Mine(b, difficulty, h, fuel).value, h)
  {
    EmptyHashMeetsOnlyZero(difficulty);
    MineStopsAtFirstHit(b, difficulty, h, fuel);
  }

  /** With a 64-digit digest and more than 64 required zeros, mining a fresh block never ends. */
  lemma MineBeyondDigestLength(b: Block, difficulty: nat, h: Hasher, fuel: nat)
    requires WellFormed(h) && Unmined(b) && difficulty > 64
    ensures Mine(b, difficulty, h, fuel).None?
  {
    EmptyHashMeetsOnlyZero(difficulty);
    MineGivesUpOnlyWhenNothingMeets(b, difficulty, h, fuel);
    forall k | b.nonce < k <= b.nonce + fuel
      ensures !MeetsTarget(HashWithNonce(b, k, h), difficulty)
    {
      WellFormedMissesLongTargets(h, Preimage(Fields(b).(nonce := k)), difficulty);
    }
  }

  // ---------- Blockchain ----------

  /** `Blockchain`: the blocks, genesis first, and the difficulty new blocks are mined at. */
  datatype Blockchain = Blockchain(chain: seq<Block>, difficulty: nat)

  /** `create_genesis_block`'s block: hashed once, never mined. */
  function GenesisBlock(now: I64, h: Hasher): (g: Block)
    ensures g.index == 0 && g.data == GENESIS_DATA && g.timestamp == now
    ensures g.previousHash == GENESIS_PREVIOUS_HASH && g.nonce == 0 && g.effortUsed == 0
    ensures g.hash == CalculateHash(g, h)
  {
    var genesis := NewBlock(0, GENESIS_DATA, GENESIS_PREVIOUS_HASH, now);
    genesis.(hash := CalculateHash(genesis, h))
  }

  /** `Blockchain::new`. */
  function NewChain(now: I64, h: Hasher): (bc: Blockchain)
    ensures |bc.chain| == 1 && bc.chain[0] == GenesisBlock(now, h)
    ensures bc.difficulty == DIFFICULTY
    ensures ChainValid(bc.chain, h)
  {
    Blockchain([GenesisBlock(now, h)], DIFFICULTY)
  }

  /** Block `i` carries its own recomputed hash and names block `i - 1` as its parent. */
  predicate LinkValid(c: seq<Block>, i: nat, h: Hasher)
    requires 1 <= i < |c|
  {
    c[i].hash == CalculateHash(c[i], h) && c[i].previousHash == c[i - 1].hash
  }

  /** Every block after the genesis block passes both of `is_valid`'s checks. */
  predicate ChainValid(c: seq<Block>, h: Hasher)
  {
    forall i :: 1 <= i < |c| ==> LinkValid(c, i, h)
  }

  /** A chain of at most one block has no link to check. */
  lemma ShortChainValid(c: seq<Block>, h: Hasher)
    requires |c| <= 1
    ensures ChainValid(c, h)
  {
  }

  /**
    `add_block`: a block at index `len as u32` naming the last block's hash
    (`chain.last().unwrap()` panics on an empty chain), mined at the chain's
    difficulty with at most `fuel` passes, then pushed.
   */
  function AddBlock(bc: Blockchain, data: string, now: I64, h: Hasher, fuel: nat): (r: Option<Blockchain>)
    requires |bc.chain| > 0
    ensures r.Some? ==> r.value.difficulty == bc.difficulty
    ensures r.Some? ==> |r.value.chain| == |bc.chain| + 1 && r.value.chain[..|bc.chain|] == bc.chain
    ensures r.Some? ==>
              var b := r.value.chain[|bc.chain|];
              && b.index == ToU32(|bc.chain|)
              && b.previousHash == bc.chain[|bc.chain| - 1].hash
              && b.data == data && b.timestamp == now
              && MeetsTarget(b.hash, bc.difficulty)
              && b.effortUsed == b.nonce
    ensures r.Some? && bc.difficulty >= 1 ==>
              var b := r.value.chain[|bc.chain|];
              b.nonce >= 1 && b.hash == CalculateHash(b, h)
    ensures r.None? ==> bc.difficulty >= 1
  {
    var unmined := NewBlock(ToU32(|bc.chain|), data, bc.chain[|bc.chain| - 1].hash, now);
    EmptyHashMeetsOnlyZero(bc.difficulty);
    match Mine(unmined, bc.difficulty, h, fuel)
    case None => None
    case Some(mined) =>
      MineStopsAtFirstHit(unmined, bc.difficulty, h, fuel);
      Some(bc.(chain := bc.chain + [mined]))
  }

  /** `is_valid`: walks blocks 1.. and returns false at the first bad hash or broken link. */
  method IsValid(bc: Blockchain, h: Hasher) returns (valid: bool)
    ensures valid <==> ChainValid(bc.chain, h)
  {
    var i := 1;
    while i < |bc.chain|
      invariant 1 <= i
      invariant forall j :: 1 <= j < i && j < |bc.chain| ==> LinkValid(bc.chain, j, h)
    {
      var prev := bc.chain[i - 1];
      var current := bc.chain[i];
      if current.hash != CalculateHash(current, h) {
        assert !LinkValid(bc.chain, i, h);
        return false;
      }
      if current.previousHash != prev.hash {
        assert !LinkValid(bc.chain, i, h);
        return false;
      }
      i := i + 1;
    }
    return true;
  }

  /** `is_valid` never rehashes block 0: an edit of one of the genesis block's five hashed fields goes unnoticed. */
  lemma GenesisEditUndetected(c: seq<Block>, e: Edit, h: Hasher)
    requires |c| >= 1 && ChainValid(c, h)
    ensures ChainValid(c[0 := ApplyEdit(c[0], e)], h)
  {
    var t := c[0 := ApplyEdit(c[0], e)];
    forall i | 1 <= i < |t|
      ensures LinkValid(t, i, h)
    {
      assert LinkValid(c, i, h);
    }
  }

  /** `effort_used` is not hashed: rewriting it on any block leaves a valid chain valid. */
  lemma EffortEditUndetected(c: seq<Block>, i: nat, effort: nat, h: Hasher)
    requires ChainValid(c, h) && i < |c|
    ensures ChainValid(c[i := c[i].(effortUsed := effort)], h)
  {
    var t := c[i := c[i].(effortUsed := effort)];
    forall j | 1 <= j < |t|
      ensures LinkValid(t, j, h)
    {
      assert LinkValid(c, j, h);
      CalculateHashIgnoresEffort(c[j], effort, c[j].hash, h);
    }
  }

  /** Under a collision-free digest, an edit of one of the five hashed fields of a block after genesis makes the chain invalid. */
  lemma EditDetected(c: seq<Block>, i: nat, e: Edit, h: Hasher)
    requires ChainValid(c, h) && 1 <= i < |c|
    requires Injective(h)
    requires ApplyEdit(c[i], e) != c[i]
    ensures !ChainValid(c[i := ApplyEdit(c[i], e)], h)
  {
    assert LinkValid(c, i, h);
    EditChangesHash(c[i], e, h);
    assert !LinkValid(c[i := ApplyEdit(c[i], e)], i, h);
  }

  /** Rewriting the stored hash of a block after genesis breaks that block's own rehash check; no digest assumption is needed. */
  lemma StoredHashEditDetected(c: seq<Block>, i: nat, hash: string, h: Hasher)
    requires ChainValid(c, h) && 1 <= i < |c|
    requires hash != c[i].hash
    ensures !ChainValid(c[i := c[i].(hash := hash)], h)
  {
    assert LinkValid(c, i, h);
    assert CalculateHash(c[i].(hash := hash), h) == CalculateHash(c[i], h);
    assert !LinkValid(c[i := c[i].(hash := hash)], i, h);
  }

  /** Rewriting the genesis block's stored hash is caught by block 1's link check. */
  lemma GenesisHashEditDetected(c: seq<Block>, hash: string, h: Hasher)
    requires ChainValid(c, h) && |c| >= 2
    requires hash != c[0].hash
    ensures !ChainValid(c[0 := c[0].(hash := hash)], h)
  {
    assert LinkValid(c, 1, h);
    assert !LinkValid(c[0 := c[0].(hash := hash)], 1, h);
  }


  /** A block appended at difficulty 1 or more keeps a valid chain valid. */
  lemma AddBlockPreservesValidity(bc: Blockchain, data: string, now: I64, h: Hasher, fuel: nat)
    requires |bc.chain| > 0 && bc.difficulty >= 1 && ChainValid(bc.chain, h)
    requires AddBlock(bc, data, now, h, fuel).Some?
    ensures ChainValid(AddBlock(bc, data, now, h, fuel).value.chain, h)
  {
    var c := AddBlock(bc, data, now, h, fuel).value.chain;
    forall i | 1 <= i < |c|
      ensures LinkValid(c, i, h)
    {
      if i < |bc.chain| {
        assert LinkValid(bc.chain, i, h);
        assert c[i] == bc.chain[i] && c[i - 1] == bc.chain[i - 1];
      } else {
        assert c[i - 1] == bc.chain[|bc.chain| - 1];
      }
    }
  }

  /**
    At difficulty 0 the appended block keeps the empty hash, which no
    well-formed digest equals, so `is_valid` rejects the chain.
   */
  lemma ZeroDifficultyBreaksValidity(bc: Blockchain, data: string, now: I64, h: Hasher, fuel: nat)
    requires |bc.chain| > 0 && bc.difficulty == 0 && WellFormed(h)
    ensures AddBlock(bc, data, now, h, fuel).Some?
    ensures !ChainValid(AddBlock(bc, data, now, h, fuel).value.chain, h)
  {
    var unmined := NewBlock(ToU32(|bc.chain|), data, bc.chain[|bc.chain| - 1].hash, now);
    MineAtZeroDifficulty(unmined, h, fuel);
    var c := AddBlock(bc, data, now, h, fuel).value.chain;
    WellFormedNeverEmpty(h, Preimage(Fields(c[|bc.chain|])));
    assert !LinkValid(c, |bc.chain|, h);
  }

  /** `add_block` called once per entry, in order; `None` if any search runs out of fuel. */
  function AddBlocks(bc: Blockchain, entries: seq<(string, I64)>, h: Hasher, fuel: nat): (r: Option<Blockchain>)
    requires |bc.chain| > 0
    decreases |entries|
  {
    if |entries| == 0 then Some(bc)
    else match AddBlock(bc, entries[0].0, entries[0].1, h, fuel)
      case None => None
      case Some(next) => AddBlocks(next, entries[1..], h, fuel)
  }

  /**
    Block `i` sits at index `i` as a `u32` (so indices repeat after 2^32
    blocks), its attempt count equals its nonce, and after genesis it meets
    the chain's target.
   */
  predicate WellMined(bc: Blockchain)
  {
    && |bc.chain| > 0
    && (forall i :: 0 <= i < |bc.chain| ==> bc.chain[i].index == ToU32(i) && bc.chain[i].effortUsed == bc.chain[i].nonce)
    && (forall i :: 1 <= i < |bc.chain| ==> MeetsTarget(bc.chain[i].hash, bc.difficulty))
  }

  /** Appending entries keeps a valid, well-mined chain valid and well-mined, and never touches its prefix. */
  lemma {:induction false} AddBlocksKeepsInvariants(bc: Blockchain, entries: seq<(string, I64)>, h: Hasher, fuel: nat)
    requires WellMined(bc) && bc.difficulty >= 1 && ChainValid(bc.chain, h)
    requires AddBlocks(bc, entries, h, fuel).Some?
    ensures var r := AddBlocks(bc, entries, h, fuel).value;
            && WellMined(r) && ChainValid(r.chain, h)
            && |r.chain| == |bc.chain| + |entries| && r.chain[..|bc.chain|] == bc.chain
            && r.difficulty == bc.difficulty
    decreases |entries|
  {
    if |entries| > 0 {
      var next := AddBlock(bc, entries[0].0, entries[0].1, h, fuel).value;
      AddBlockPreservesValidity(bc, entries[0].0, entries[0].1, h, fuel);
      assert WellMined(next) by {
        forall i | 0 <= i < |next.chain|
          ensures next.chain[i].index == ToU32(i) && next.chain[i].effortUsed == next.chain[i].nonce
        {
          if i < |bc.chain| {
            assert next.chain[i] == bc.chain[i];
          }
        }
        forall i | 1 <= i < |next.chain|
          ensures MeetsTarget(next.chain[i].hash, next.difficulty)
        {
          if i < |bc.chain| {
            assert next.chain[i] == bc.chain[i];
          }
        }
      }
      AddBlocksKeepsInvariants(next, entries[1..], h, fuel);
      var r := AddBlocks(next, entries[1..], h, fuel).value;
      assert r.chain[..|bc.chain|] == r.chain[..|next.chain|][..|bc.chain|];
    }
  }

  /**
    From `Blockchain::new()`, any run of `add_block` calls gives a chain that
    `is_valid` accepts, with the genesis block still first and every later
    block at its own `u32` position, meeting difficulty 4, with as many
    attempts recorded as its nonce.
   */
  lemma BuiltChainIsValid(now: I64, entries: seq<(string, I64)>, h: Hasher, fuel: nat)
    requires AddBlocks(NewChain(now, h), entries, h, fuel).Some?
    ensures var r := AddBlocks(NewChain(now, h), entries, h, fuel).value;
            && ChainValid(r.chain, h)
            && |r.chain| == 1 + |entries| && r.chain[0] == GenesisBlock(now, h)
            && r.difficulty == DIFFICULTY
            && forall i :: 1 <= i < |r.chain| ==>
                 && r.chain[i].index == ToU32(i)
                 && r.chain[i].effortUsed == r.chain[i].nonce
                 && MeetsTarget(r.chain[i].hash, DIFFICULTY)
  {
    var bc := NewChain(now, h);
    AddBlocksKeepsInvariants(bc, entries, h, fuel);
    var r := AddBlocks(bc, entries, h, fuel).value;
    assert r.chain[0] == r.chain[..1][0];
  }
}

=== FILE: options.dfy ===
/** The optional value used for parse results and for mining searches that run out of attempts. */
module Options {

  datatype Option<+T> = None | Some(value: T)
}

=== FILE: text.dfy ===
/**
  The string primitives the blocks are built from: Rust's `str::repeat` and
  `str::starts_with`, and the `{}` (Display) rendering of integers that
  `format!` uses when it builds a block's hash preimage.
 */
module Text {

  import opened Options

  /** `[c].repeat(n)`: the character `c`, `n` times. */
  function Repeat(c: char, n: nat): (r: string)
    ensures |r| == n
    ensures forall i :: 0 <= i < n ==> r[i] == c
  {
    if n == 0 then [] else [c] + Repeat(c, n - 1)
  }

  /** `s.starts_with(prefix)`. */
  predicate StartsWith(s: string, prefix: string)
  {
    |prefix| <= |s| && s[..|prefix|] == prefix
  }

  predicate IsDigit(c: char)
  {
    '0' <= c <= '9'
  }

  predicate AllDigits(s: string)
  {
    forall i :: 0 <= i < |s| ==> IsDigit(s[i])
  }

  function DigitChar(d: nat): (c: char)
    requires d < 10
    ensures IsDigit(c)
  {
    ('0' as int + d) as char
  }

  function DigitValue(c: char): (d: nat)
    requires IsDigit(c)
    ensures d < 10 && DigitChar(d) == c
  {
    c as int - '0' as int
  }

  /**
    Decimal rendering of a natural number, most significant digit first,
    without leading zeros.
   */
  function NatToDecimal(n: nat): string
  {
    if n < 10 then [DigitChar(n)] else NatToDecimal(n / 10) + [DigitChar(n % 10)]
  }

  /** Rust's `{}` rendering of a signed integer: a `-` sign for negatives, then the digits. */
  function IntToDecimal(n: int): string
  {
    if n < 0 then "-" + NatToDecimal(-n) else NatToDecimal(n)
  }

  /** The rendering is a non-empty run of digits, led by `0` only when it is exactly "0". */
  lemma {:induction false} NatToDecimalShape(n: nat)
    ensures |NatToDecimal(n)| >= 1 && AllDigits(NatToDecimal(n))
    ensures NatToDecimal(n)[0] == '0' <==> n == 0
    ensures n == 0 ==> NatToDecimal(n) == "0"
  {
    if n >= 10 {
      NatToDecimalShape(n / 10);
    }
  }

  /** The value of a string of decimal digits (the empty string reads as 0). */
  function DigitsValue(s: string): nat
    requires AllDigits(s)
  {
    if |s| == 0 then 0 else 10 * DigitsValue(s[..|s| - 1]) + DigitValue(s[|s| - 1])
  }

  /** Reads back what `IntToDecimal` writes; `None` for strings it never writes. */
  function ParseDecimal(s: string): (r: Option<int>)
    ensures r.Some? ==> |s| >= 1
  {
    if |s| >= 2 && s[0] == '-' && AllDigits(s[1..]) && s[1] != '0' then Some(0 - DigitsValue(s[1..]) as int)
    else if |s| >= 1 && AllDigits(s) && (s[0] != '0' || |s| == 1) then Some(DigitsValue(s))
    else None
  }

  lemma {:induction false} NatToDecimalValue(n: nat)
    ensures AllDigits(NatToDecimal(n))
    ensures DigitsValue(NatToDecimal(n)) == n
  {
    NatToDecimalShape(n);
    var r := NatToDecimal(n);
    if n >= 10 {
      NatToDecimalValue(n / 10);
      assert r[..|r| - 1] == NatToDecimal(n / 10);
      assert r[|r| - 1] == DigitChar(n % 10);
    }
  }

  /** Rendering then parsing gives back the number: the rendering is the inverse of parsing. */
  lemma DecimalRoundTrip(n: int)
    ensures ParseDecimal(IntToDecimal(n)) == Some(n)
  {
    if n < 0 {
      var digits := NatToDecimal(-n);
      NatToDecimalShape(-n);
      assert IntToDecimal(n)[1..] == digits;
      NatToDecimalValue(-n);
    } else {
      NatToDecimalShape(n);
      NatToDecimalValue(n);
    }
  }

  lemma {:induction false} DigitsRoundTrip(s: string)
    requires |s| >= 1 && AllDigits(s)
    requires s[0] != '0' || |s| == 1
    ensures NatToDecimal(DigitsValue(s)) == s
  {
    if |s| >= 2 {
      var p := s[..|s| - 1];
      assert p[0] == s[0];
      DigitsRoundTrip(p);
      NatToDecimalShape(DigitsValue(p));
      var v := DigitsValue(s);
      assert DigitsValue(p) != 0;
      assert v / 10 == DigitsValue(p) && v % 10 == DigitValue(s[|s| - 1]);
      assert s == p + [s[|s| - 1]];
    }
  }

  /** Every string the parser accepts is exactly the rendering of the number it reads. */
  lemma ParseRenders(s: string)
    requires ParseDecimal(s).Some?
    ensures IntToDecimal(ParseDecimal(s).value) == s
  {
    if |s| >= 2 && s[0] == '-' && AllDigits(s[1..]) && s[1] != '0' {
      DigitsRoundTrip(s[1..]);
      assert s == "-" + s[1..];
    } else {
      DigitsRoundTrip(s);
    }
  }

  /** Distinct integers render to distinct strings. */
  lemma DecimalInjective(a: int, b: int)
    requires IntToDecimal(a) == IntToDecimal(b)
    ensures a == b
  {
    DecimalRoundTrip(a);
    DecimalRoundTrip(b);
  }
}
